=== FILE: README.md ===
# Events calendar: column layout and labels

This project models the day calendar that lays out timed events side by side.
An event is a start, counted in minutes from the calendar's first hour (9 AM),
and a duration in minutes. The repository holds two drafts of the calendar:

- `scripts/Events.js` is the class-based calendar, modelled by the class
  `Events.EventsCalendar`. Its constructor rejects anything but a non-empty
  array of events. It keeps a copy of the events sorted by start with a stable
  sort. `setPositions` then sweeps the sorted events once, giving each a
  column (`simultaneousEventPositions`) and its row's number of columns
  (`eventColTotals`). The width and left offset of every event are drawn from
  these two numbers. The class also holds the hour labels of the day and
  `calcTime`.
- `scripts/renderEvents.js` is the earlier object-literal draft, modelled by
  the module `RenderEvents` and its class `CalendarEventsApp`. It has its own
  input check, sort and hour label. It gives each event an equal share of the
  width with the events on its list of simultaneous events. That list is
  evidently meant to hold the events still running when the new one starts.
  As written, its removal drops entries from the end of the list instead (see
  Findings). `CalendarEventsApp.RenderSlots` models the loop as written and
  `CalendarEventsApp.RenderSlotsIntended` the intended one.

The modules are:

- `CalendarData`: the event record, the argument a caller hands over, the
  comparator, and the stable sort.
- `ColumnLayout`: the sweep of `setPositions` as functions.
  - `Place` decides the column of one event.
  - `ColTotals` and `Stamp` are `setColTotals`.
  - `SweepPrefix` is the sweep's state after the first k events.
- `Events`: the class that does the same sweep by updating its fields, the
  hour and time labels.
- `RenderEvents`: the earlier draft.
- `LayoutExamples`: worked layouts of small inputs. One of them is the second
  sample array of `scripts/sampleEvents.js`.

The column map of `setPositions` is a JavaScript array written at arbitrary
indices. The model keeps it as a sequence of slots that are either holes or
recorded end times. `length` counts the holes and `reduce` skips them.

The sweep is modelled as written, quirks included:

- An event that fits no new row and no new column reuses the *highest* free
  column.
- The counter `col` also moves on after a reuse. A later new column can
  therefore leave a hole, and the hole counts in the row's total
  (`LayoutExamples.HoleExample`).
- A row is stamped with its total only when the next row starts or at the last
  event. A last event that starts a new row therefore keeps the closed row's
  total (`LayoutExamples.LastRowExample`).
- Events that only touch do not overlap.

Reuse takes the highest free column, not the lowest. The code checks only
that it was given a non-empty array and never validates an event's fields, so
the no-overlap result is proved for any durations.

## Model

| member | source | states |
|---|---|---|
| CalendarData.CompareStartTime | scripts/Events.js:87-95 | the result is -1, 1 or 0 exactly when the first event starts before, after or at the same minute as the second (the same comparator is at scripts/renderEvents.js:93-101) |
| CalendarData.SortByStartCorrect | scripts/Events.js:76-78 | the sorted copy is in non-decreasing start order and is a permutation of the events given |
| CalendarData.SortByStartStable | scripts/Events.js:77 | events with the same start keep their original relative order, as the stable `Array.prototype.sort` keeps them |
| CalendarData.SortByStartKeepsSorted | scripts/Events.js:77 | sorting events already in start order gives them back unchanged |
| ColumnLayout.Store | scripts/Events.js:127 | writing an end time at a column past the map's end grows the map to that column, fills the gap with holes and leaves every other entry alone |
| ColumnLayout.LatestEndIsMax | scripts/Events.js:134 | the latest-end reduce yields the end of some recorded column, and no recorded column ends later; holes are skipped |
| ColumnLayout.EarliestEndIsMin | scripts/Events.js:135 | the earliest-end reduce yields the end of some recorded column, and no recorded column ends earlier |
| ColumnLayout.LastFreeColumnIsHighest | scripts/Events.js:159 | the position reduce yields the highest column whose recorded end is at or before the start, and 1 when there is none |
| ColumnLayout.Place | scripts/Events.js:125-164 | the first branch is taken exactly on an empty map, and then the event gets column `col`, the counter moves to `col + 1`, and the map holds holes up to `col` and the event's end there, nothing else; the event's end is recorded at the column it is given |
| ColumnLayout.PlaceBranches | scripts/Events.js:137-163 | on a non-empty map: new row iff every recorded end is at or before the start, and then column 0 of a map holding only the event's end; new column iff every recorded end is after the start, at column `col`; otherwise the highest free column, whose entry alone is overwritten; `col` moves on in every branch but the new row |
| ColumnLayout.PlaceShape | scripts/Events.js:137-163 | a placement shrinks the map only when a row starts, and a counter at or past the map's length stays there |
| ColumnLayout.SweepNewColumnKeepsMap | scripts/Events.js:149-156 | during the sweep a new column never overwrites a recorded column: every earlier entry of the map survives |
| ColumnLayout.SetAt | scripts/Events.js:177 | an array write at an index at most the length: that index holds the value, every other entry is kept |
| ColumnLayout.Stamp | scripts/Events.js:176-178 | every index from the offset to `index` holds the row's column count, every other entry is kept, and the array grows to `index + 1` when shorter |
| ColumnLayout.ColTotalsStamps | scripts/Events.js:173-181 | setColTotals changes nothing unless `index` is the last index or the call is forced; then it stamps the count from the offset to `index` and moves the offset to `index` |
| ColumnLayout.Step | scripts/Events.js:121-164 | one pass of the loop body keeps the offset within the totals and leaves the map's last entry recorded |
| ColumnLayout.SweepPrefix | scripts/Events.js:121-164 | after any number of events the offset lies within the totals and the map is empty or ends in a recorded column |
| ColumnLayout.SweepPrefixShape | scripts/Events.js:121-181 | once every event is placed, each has a column total of at least 1 and a column below its total, so width and left stay inside the day column |
| ColumnLayout.LayoutNoOverlap | scripts/Events.js:121-164 | on events sorted by start, no two events given the same column overlap in time |
| Events.EventsCalendar.constructor | scripts/Events.js:11-69 | a missing value, a non-array or an empty array leaves the calendar empty; otherwise the fields hold the sorted copy and its sweep, with valid widths and no overlap within a column |
| Events.EventsCalendar.SortEvents | scripts/Events.js:76-78 | `sortedEvents` becomes the stable sort of the events, sorted and a permutation of them |
| Events.EventsCalendar.SetColTotals | scripts/Events.js:173-181 | the loop leaves the totals and offset that setColTotals specifies (see ColumnLayout.ColTotalsStamps) |
| Events.EventsCalendar.SetPositions | scripts/Events.js:100-165 | the loop leaves the positions, totals and offset of the full sweep, with valid widths, and no overlap within a column when the events are sorted |
| Events.EventsCalendar.PositionEvent | scripts/Events.js:121-164 | one pass of the loop body, branch by branch, moves the map, counter and fields exactly as one sweep step does |
| Events.EventsCalendar.CalHourLabels | scripts/Events.js:186-200 | there are `hoursInCalDay + 1` labels, one per hour from the first hour on, each reading back as its hour |
| Events.GetCalHourLabel | scripts/Events.js:208-212 | PM exactly from hour 12 on; every hour of the day reads back as itself; hours 1 to 24 print as 1 to 12 |
| Events.CalcTime | scripts/Events.js:282-294 | the minutes are the minute count mod 60, left off exactly when it is a whole number of hours; PM exactly when the hour is past 12; hours 1 to 24 print as 1 to 12, and the noon hour as 12; within the day every hour but 12 reads back as the minute it was computed from (the same function is at scripts/renderEvents.js:65-77) |
| Events.CalcTimeMisreadsNoon | scripts/Events.js:288-291 | within the day, calcTime's label names the right time exactly when the hour is not 12; in the noon hour it names the time twelve hours earlier |
| Events.CalcTimeNoonExample | scripts/Events.js:288-291 | three hours after 9 reads "12 AM", which names midnight; the corrected version names noon |
| Events.CalcTimeCorrected | scripts/Events.js:282-294 | minutes are between 0 and 59 and, within the day, the label names exactly the minute it was computed from |
| RenderEvents.GetHourLabel | scripts/renderEvents.js:118-129 | PM exactly when the hour is past 12 |
| RenderEvents.HourLabelsDifferAtNoon | scripts/renderEvents.js:121-127 | this draft's hour label agrees with getCalHourLabel at every hour but 12, which it prints as "12 AM" |
| RenderEvents.CountExpired | scripts/renderEvents.js:202-206 | the number of listed events that ended strictly before the start is at most the list's length |
| RenderEvents.UpdateSimultaneousEvents | scripts/renderEvents.js:199-212 | the result is the list less as many entries from its end as there are entries that ended before the start; an empty list comes back unchanged |
| RenderEvents.SpliceDropsRunningEvent | scripts/renderEvents.js:207-209 | on entries ending at 30 and 100, at minute 50 the written removal keeps the finished entry and drops the running one |
| RenderEvents.StillRunning | scripts/renderEvents.js:199-212 | the list never grows |
| RenderEvents.StillRunningMembers | scripts/renderEvents.js:202-209 | an entry is kept exactly when it is listed and has not ended before the start |
| RenderEvents.CountExpiredComplementsStillRunning | scripts/renderEvents.js:202-209 | the entries the written removal counts as finished and the entries the intended removal keeps add up to the whole list |
| RenderEvents.StillRunningKeepsOrder | scripts/renderEvents.js:199-212 | dropping the finished entries keeps the rest in their order |
| RenderEvents.Relayout | scripts/renderEvents.js:228-235 | with n listed events, the event at list position idx gets slot idx of n + 1 and no other event's slot changes; the loop leaves the fold of those moves in list order |
| RenderEvents.RelaidMoves | scripts/renderEvents.js:231-234 | after the first idx moves, with distinct ids, the entry at k holds slot k of n + 1 and a slot no such entry names is as it was |
| RenderEvents.ListedKeepsIds | scripts/renderEvents.js:199-212 | the written and the intended update of the list both keep its ids increasing and below any bound they were below |
| RenderEvents.RenderStepSlots | scripts/renderEvents.js:226-237 | one pass of the loop body gives the n listed events slots 0 to n - 1 of n + 1 and the new event slot n, lists it last, and leaves every other slot alone |
| RenderEvents.RenderNextLaid | scripts/renderEvents.js:222-238 | one pass, after either update of the list, keeps one slot per event, every slot inside the day column, the listed ids increasing and below the event count, and the n listed events in slots 0 to n - 1 of n |
| RenderEvents.RenderPrefixLaid | scripts/renderEvents.js:221-239 | after any number of sorted events the loop's state has all of the above, for the written and the intended update alike |
| RenderEvents.RenderPrefixRunning | scripts/renderEvents.js:224-237 | with finished events dropped, every event listed after an event but the newest is still running when that event starts |
| RenderEvents.CalendarEventsApp.constructor | scripts/renderEvents.js:22-23 | both event lists start as empty arrays |
| RenderEvents.CalendarEventsApp.Setup | scripts/renderEvents.js:32-34 | the events handed over are kept |
| RenderEvents.CalendarEventsApp.RequirementsMet | scripts/renderEvents.js:50-59 | false exactly for a missing value, a non-array or an empty array, the same inputs the class draft's constructor rejects |
| RenderEvents.CalendarEventsApp.SortEvents | scripts/renderEvents.js:106-109 | `sortedCalEvents` becomes the stable sort of the events, sorted and a permutation of them |
| RenderEvents.CalendarEventsApp.AddEvent | scripts/renderEvents.js:228-237 | one pass of the loop body: with n events listed, the listed ones take slots 0 to n - 1 of n + 1 and the new event slot n of n + 1, then it is listed last; every slot no listed event names keeps its value, and every slot stays inside the day column |
| RenderEvents.CalendarEventsApp.RenderEvent | scripts/renderEvents.js:222-238 | one pass of the forEach body, with the written or the intended update of the list, takes the loop's state after i events to its state after i + 1 |
| RenderEvents.CalendarEventsApp.RenderSlots | scripts/renderEvents.js:217-240 | with the written removal: the result is the loop's state after every sorted event; every sorted event gets a slot inside the day column, the n events left listed hold slots 0 to n - 1 of n, and the last event is listed last |
| RenderEvents.CalendarEventsApp.RenderSlotsIntended | scripts/renderEvents.js:217-240 | with finished events dropped: the result is the intended loop's state after every sorted event, with the same slot rule, and every listed event but the newest is still running when the last event starts |
| RenderEvents.CalendarEventsApp.Render | scripts/renderEvents.js:251-259 | the events are kept; on a rejected input nothing is sorted or laid out; otherwise the sorted copy is made and the slots are those the as-written renderEvents loop leaves after every sorted event (the `RenderPrefix` fold), each inside the day column |
| LayoutExamples.HoleExample | scripts/Events.js:149-163 | a new column after a reuse skips an index; the hole counts in the row's total of 4 |
| LayoutExamples.LastRowExample | scripts/Events.js:138-146 | a last event that starts a new row keeps the closed row's total of 2 |
| LayoutExamples.SampleEventsLayout | scripts/sampleEvents.js:26-31 | the second sample array sorts to starts 75, 120, 440, 460 and is laid out in columns 0, 1, 0, 0 with totals 2, 2, 1, 1 |

## Left out

- Rendering: DOM and string output are browser I/O, not layout logic. This covers
  - `renderCalHourBlocks` (only its hour list is modelled, by `Events.EventsCalendar.CalHourLabels`),
  - `renderEvents`, `createSingleEvent`, `appendToApp`, `createCalElement`, `innerHTML` and `appendChild`,
  - `alert` in the constructor, and `logError`/`debugLog`. `Render` returns no slots where the source logs.
- Floating-point pixel and percentage arithmetic: `calcTimePixelPos`, `calcStartTimePos`, element heights, and the `100 / total` width and left percentages. Widths and offsets are stated over slot indices (`WidthsValid`, `EventSlot`).
- Events.CalcTime: takes whole minutes and uses integer division and remainder in place of the float `Math.floor`/`Math.round` path. These agree on whole minutes. Formatting is left out: the string join, the unpadded `:5` minutes, and `getEventTime`.
- RenderEvents.UpdateSimultaneousEvents: works on a value list of (index, end time) entries. The DOM elements, the `dataset.endTime` string coercion and the in-place splice of the caller's array (the same array object is returned) are not modelled. `indexOf` of a number among elements is modelled as its result, -1.
- RenderEvents.CalendarEventsApp.RenderSlots: records each event's slot as a value rather than styling elements.
- Events.EventsCalendar.SetPositions: requires the empty layout fields the constructor leaves. Called again, the source would overwrite the positions by index, but `setColTotals` would start from the offset the earlier sweep left, which nothing resets.
- Events.EventsCalendar.SortEvents and RenderEvents.CalendarEventsApp.SortEvents: the caller's array is a value, so "not reordered" holds by construction. The engine's sort algorithm is modelled as a stable insertion sort, which ECMAScript's stable sort must agree with.
- Event validation: non-numeric fields and duck-typed event objects are out of the model, since events are integer pairs.
- The development bootstrap at the end of `scripts/renderEvents.js` and the first sample array of `scripts/sampleEvents.js` are fixture data.

## Findings

| source | as written | input that shows it | evidently intended | confidence | as-written member | corrected member |
|---|---|---|---|---|---|---|
| scripts/Events.js:288-291 | only hours past 12 become PM, so the noon hour is labelled AM | 180 minutes from a 9 o'clock start gives "12 AM" | "12 PM", as getCalHourLabel labels noon | not executed | Events.CalcTimeNoonExample | Events.CalcTimeCorrected |
| scripts/renderEvents.js:71-74 | the same test in the earlier draft's calcTime labels the noon hour AM | 180 minutes from a 9 o'clock start gives "12 AM" | "12 PM" | not executed | Events.CalcTimeMisreadsNoon | Events.CalcTimeCorrected |
| scripts/renderEvents.js:121-127 | getHourLabel makes only hours past 12 PM | hour 12 gives "12 AM" | "12 PM" | not executed | RenderEvents.HourLabelsDifferAtNoon | Events.GetCalHourLabel |
| scripts/renderEvents.js:207-209 | `indexOf` looks a position number up among elements, finds -1, and `splice(-1)` drops the last entry, once per finished entry | entries ending at 30 and 100, next event at 50: the entry ending at 100 is dropped, the one ending at 30 kept | drop the entries that have finished | not executed | RenderEvents.SpliceDropsRunningEvent | RenderEvents.CalendarEventsApp.RenderSlotsIntended |

=== FILE: calendar_data.dfy ===
/**
 * Calendar events as the calendar receives them, and the start-time order in
 * which both calendar drafts lay them out.
 */
module CalendarData {

  /** One event: minutes from the calendar's first hour, and its length in minutes. */
  datatype CalEvent = CalEvent(startsAt: int, duration: int)

  /** What a caller may hand over where an array of events is expected. */
  datatype EventsArg =
    | Missing                            // undefined, null or any other falsy value
    | NotAnArray                         // a truthy value that is not an array
    | EventArray(events: seq<CalEvent>)

  /**
   * The guard both calendar drafts apply before laying anything out: a value
   * that is present, is an array, and has at least one element.
   */
  predicate SuppliesEvents(arg: EventsArg) {
    arg.EventArray? && |arg.events| > 0
  }

  function End(e: CalEvent): int {
    e.startsAt + e.duration
  }

  /** Two events overlap when each starts before the other ends; touching events do not. */
  predicate Overlap(a: CalEvent, b: CalEvent) {
    a.startsAt < End(b) && b.startsAt < End(a)
  }

  /** The comparator handed to Array.prototype.sort: negative, positive or zero. */
  function CompareStartTime(a: CalEvent, b: CalEvent): (r: int)
    ensures r == -1 <==> a.startsAt < b.startsAt
    ensures r == 1 <==> a.startsAt > b.startsAt
    ensures r == 0 <==> a.startsAt == b.startsAt
  {
    if a.startsAt < b.startsAt then -1
    else if a.startsAt > b.startsAt then 1
    else 0
  }

  predicate SortedByStart(s: seq<CalEvent>) {
    forall i, j :: 0 <= i < j < |s| ==> s[i].startsAt <= s[j].startsAt
  }

  /** The events of `s` that start at minute `t`, in their order in `s`. */
  function StartingAt(s: seq<CalEvent>, t: int): seq<CalEvent> {
    if s == [] then []
    else if s[0].startsAt == t then [s[0]] + StartingAt(s[1..], t)
    else StartingAt(s[1..], t)
  }

  /** Puts `e` in front of the first element that does not start before it. */
  function Insert(e: CalEvent, s: seq<CalEvent>): seq<CalEvent> {
    if s == [] then [e]
    else if CompareStartTime(e, s[0]) <= 0 then [e] + s
    else [s[0]] + Insert(e, s[1..])
  }

  /**
   * The copy that `slice().sort(compareStartTime)` produces. ECMAScript requires
   * Array.prototype.sort to be stable, so the result is the stable sort by start.
   */
  function SortByStart(s: seq<CalEvent>): seq<CalEvent> {
    if s == [] then [] else Insert(s[0], SortByStart(s[1..]))
  }

  lemma {:induction false} InsertPermutes(e: CalEvent, s: seq<CalEvent>)
    ensures multiset(Insert(e, s)) == multiset(s) + multiset{e}
  {
    if s != [] && CompareStartTime(e, s[0]) > 0 {
      InsertPermutes(e, s[1..]);
      assert s == [s[0]] + s[1..];
    }
  }

  lemma {:induction false} InsertSorted(e: CalEvent, s: seq<CalEvent>)
    requires SortedByStart(s)
    ensures SortedByStart(Insert(e, s))
  {
    if s != [] && CompareStartTime(e, s[0]) > 0 {
      var rest := Insert(e, s[1..]);
      InsertSorted(e, s[1..]);
      InsertPermutes(e, s[1..]);
      forall k | 0 <= k < |rest|
        ensures s[0].startsAt <= rest[k].startsAt
      {
        assert rest[k] in multiset(rest);
        assert rest[k] == e || rest[k] in multiset(s[1..]);
      }
    }
  }

  /** The sorted copy holds the same events, in non-decreasing start order. */
  lemma {:induction false} SortByStartCorrect(s: seq<CalEvent>)
    ensures SortedByStart(SortByStart(s))
    ensures multiset(SortByStart(s)) == multiset(s)
  {
    if s != [] {
      SortByStartCorrect(s[1..]);
      InsertSorted(s[0], SortByStart(s[1..]));
      InsertPermutes(s[0], SortByStart(s[1..]));
      assert s == [s[0]] + s[1..];
    }
  }

  lemma {:induction false} StartingAtConcat(a: seq<CalEvent>, b: seq<CalEvent>, t: int)
    ensures StartingAt(a + b, t) == StartingAt(a, t) + StartingAt(b, t)
  {
    if a != [] {
      StartingAtConcat(a[1..], b, t);
      assert (a + b)[1..] == a[1..] + b;
    } else {
      assert a + b == b;
    }
  }

  lemma {:induction false} StartingAtInsert(e: CalEvent, s: seq<CalEvent>, t: int)
    ensures StartingAt(Insert(e, s), t) == if e.startsAt == t then [e] + StartingAt(s, t) else StartingAt(s, t)
  {
    if s == [] {
    } else if CompareStartTime(e, s[0]) <= 0 {
      StartingAtConcat([e], s, t);
    } else {
      StartingAtInsert(e, s[1..], t);
      StartingAtConcat([s[0]], Insert(e, s[1..]), t);
      StartingAtConcat([s[0]], s[1..], t);
      assert s == [s[0]] + s[1..];
    }
  }

  /** Stability: events with equal start times keep their original relative order. */
  lemma {:induction false} SortByStartStable(s: seq<CalEvent>, t: int)
    ensures StartingAt(SortByStart(s), t) == StartingAt(s, t)
  {
    if s != [] {
      SortByStartStable(s[1..], t);
      StartingAtInsert(s[0], SortByStart(s[1..]), t);
    }
  }

  /** Sorting a list that is already in start order gives it back unchanged. */
  lemma {:induction false} SortByStartKeepsSorted(s: seq<CalEvent>)
    requires SortedByStart(s)
    ensures SortByStart(s) == s
  {
    if s != [] {
      assert SortedByStart(s[1..]);
      SortByStartKeepsSorted(s[1..]);
      var rest := s[1..];
      if rest != [] {
        assert CompareStartTime(s[0], rest[0]) <= 0;
      }
      assert s == [s[0]] + rest;
    }
  }
}

=== FILE: column_layout.dfy ===
/**
 * The column-layout sweep of the events calendar, as pure functions: the
 * decision taken for one event, the stamping of row column totals, and the
 * state reached after the first k sorted events. The class that performs the
 * same sweep by updating its fields is Events.EventsCalendar.
 */
module ColumnLayout {
  import opened CalendarData

  /**
   * One index of `eventMap`. Writing past the end of a JavaScript array leaves
   * holes; `length` counts them, `reduce` skips them.
   */
  datatype Slot = Hole | EndsAt(time: int)

  predicate Occupied(m: seq<Slot>, c: int) {
    0 <= c < |m| && m[c].EndsAt?
  }

  predicate HasEntry(m: seq<Slot>) {
    exists c :: 0 <= c < |m| && Occupied(m, c)
  }

  /** `eventMap[c] = t`: in place inside the array, otherwise after a run of holes. */
  function Store(m: seq<Slot>, c: nat, t: int): (r: seq<Slot>)
    ensures |r| == if c < |m| then |m| else c + 1
    ensures r[c] == EndsAt(t)
    ensures forall i :: 0 <= i < |r| && i != c ==> r[i] == if i < |m| then m[i] else Hole
  {
    if c < |m| then m[c := EndsAt(t)]
    else m + seq(c - |m|, _ => Hole) + [EndsAt(t)]
  }

  /**
   * `reduce` without an initial value, visiting indices `i` onward: the first
   * occupied column seeds the accumulator, holes are skipped, and `later`
   * picks the later (true) or the earlier (false) of two end times.
   */
  function ReduceEnds(m: seq<Slot>, i: nat, acc: Slot, later: bool): Slot
    decreases |m| - i
  {
    if i >= |m| then acc
    else
      var item := m[i];
      var next :=
        if item.Hole? then acc
        else if acc.Hole? then item
        else if later && item.time > acc.time then item
        else if !later && item.time < acc.time then item
        else acc;
      ReduceEnds(m, i + 1, next, later)
  }

  /** What the reduce from index `i` returns: an end time taken from the map or the seed, beating all later ones. */
  lemma {:induction false} ReduceEndsBounds(m: seq<Slot>, i: nat, acc: Slot, later: bool)
    ensures var r := ReduceEnds(m, i, acc, later);
      && (r.Hole? <==> acc.Hole? && forall c :: i <= c < |m| ==> !Occupied(m, c))
      && (r.EndsAt? ==> r == acc || exists c :: i <= c < |m| && Occupied(m, c) && m[c] == r)
      && (r.EndsAt? && acc.EndsAt? ==> if later then acc.time <= r.time else r.time <= acc.time)
      && (forall c :: i <= c < |m| && Occupied(m, c) ==>
            if later then m[c].time <= r.time else r.time <= m[c].time)
    decreases |m| - i
  {
    if i < |m| {
      var item := m[i];
      var next :=
        if item.Hole? then acc
        else if acc.Hole? then item
        else if later && item.time > acc.time then item
        else if !later && item.time < acc.time then item
        else acc;
      ReduceEndsBounds(m, i + 1, next, later);
      assert Occupied(m, i) <==> item.EndsAt?;
      var r := ReduceEnds(m, i, acc, later);
      if r.Hole? {
        assert forall c :: i <= c < |m| ==> !Occupied(m, c);
      }
    }
  }

  /** `eventMap.reduce((acc, item) => item > acc ? item : acc)`: the latest recorded end. */
  function LatestEnd(m: seq<Slot>): int
    requires HasEntry(m)
  {
    ReduceEndsBounds(m, 0, Hole, true);
    ReduceEnds(m, 0, Hole, true).time
  }

  /** `eventMap.reduce((acc, item) => item < acc ? item : acc)`: the earliest recorded end. */
  function EarliestEnd(m: seq<Slot>): int
    requires HasEntry(m)
  {
    ReduceEndsBounds(m, 0, Hole, false);
    ReduceEnds(m, 0, Hole, false).time
  }

  /** The latest recorded end is the end of some column, and no column ends later. */
  lemma LatestEndIsMax(m: seq<Slot>)
    requires HasEntry(m)
    ensures exists c :: Occupied(m, c) && m[c].time == LatestEnd(m)
    ensures forall c :: Occupied(m, c) ==> m[c].time <= LatestEnd(m)
  {
    ReduceEndsBounds(m, 0, Hole, true);
  }

  /** The earliest recorded end is the end of some column, and no column ends earlier. */
  lemma EarliestEndIsMin(m: seq<Slot>)
    requires HasEntry(m)
    ensures exists c :: Occupied(m, c) && m[c].time == EarliestEnd(m)
    ensures forall c :: Occupied(m, c) ==> EarliestEnd(m) <= m[c].time
  {
    ReduceEndsBounds(m, 0, Hole, false);
  }

  /** A column whose current occupant has ended by minute `start`. */
  predicate FreeAt(m: seq<Slot>, c: int, start: int) {
    Occupied(m, c) && m[c].time <= start
  }

  /**
   * `eventMap.reduce((acc, endTime, colIndex) => endTime <= startTime ? colIndex : acc, acc)`
   * from index `i` onward: the last index visited whose end is at most `start`.
   */
  function ReduceFree(m: seq<Slot>, start: int, i: nat, acc: int): int
    decreases |m| - i
  {
    if i >= |m| then acc
    else ReduceFree(m, start, i + 1, if FreeAt(m, i, start) then i else acc)
  }

  /** The reduce of setPositions, with its initial value 1. */
  function LastFreeColumn(m: seq<Slot>, start: int): int {
    ReduceFree(m, start, 0, 1)
  }

  lemma {:induction false} ReduceFreeBounds(m: seq<Slot>, start: int, i: nat, acc: int)
    ensures var r := ReduceFree(m, start, i, acc);
      && ((exists c :: i <= c < |m| && FreeAt(m, c, start)) ==>
            i <= r && FreeAt(m, r, start) && forall c :: i <= c < |m| && FreeAt(m, c, start) ==> c <= r)
      && ((forall c :: i <= c < |m| ==> !FreeAt(m, c, start)) ==> r == acc)
    decreases |m| - i
  {
    if i < |m| {
      ReduceFreeBounds(m, start, i + 1, if FreeAt(m, i, start) then i else acc);
    }
  }

  /** The reduce finds the highest free column when there is one, and falls back to 1 otherwise. */
  lemma LastFreeColumnIsHighest(m: seq<Slot>, start: int)
    ensures (exists c :: FreeAt(m, c, start)) ==>
              FreeAt(m, LastFreeColumn(m, start), start)
              && forall c :: FreeAt(m, c, start) ==> c <= LastFreeColumn(m, start)
    ensures (forall c :: !FreeAt(m, c, start)) ==> LastFreeColumn(m, start) == 1
  {
    ReduceFreeBounds(m, start, 0, 1);
  }

  /** The branch of setPositions an event takes. */
  datatype Branch = FirstColumn | NewRow | NewColumn | Reuse

  /** The column given to an event, and the column map and counter afterwards. */
  datatype Placement = Placement(branch: Branch, column: nat, eventMap: seq<Slot>, nextCol: nat)

  /**
   * One pass of the forEach body of setPositions: the first event takes column
   * `col`; an event that starts at or after every recorded end starts a new row
   * in column 0; one that starts before every recorded end takes column `col`;
   * any other reuses the highest column that is free at its start. `col` moves
   * on after every branch, reuse included.
   */
  function Place(m: seq<Slot>, col: nat, e: CalEvent): (p: Placement)
    requires |m| == 0 || HasEntry(m)
    ensures p.branch == FirstColumn <==> |m| == 0
    ensures |m| == 0 ==> p.column == col && p.nextCol == col + 1 && p.eventMap == Store(m, col, End(e))
    ensures p.column < |p.eventMap| && p.eventMap[p.column] == EndsAt(End(e))
    ensures (|m| == 0 || Occupied(m, |m| - 1)) ==> Occupied(p.eventMap, |p.eventMap| - 1)
  {
    if |m| == 0 then
      Placement(FirstColumn, col, Store(m, col, End(e)), col + 1)
    else if e.startsAt >= LatestEnd(m) then
      Placement(NewRow, 0, [EndsAt(End(e))], 1)
    else if e.startsAt < EarliestEnd(m) then
      Placement(NewColumn, col, Store(m, col, End(e)), col + 1)
    else
      assert exists c :: FreeAt(m, c, e.startsAt) by {
        EarliestEndIsMin(m);
        var c :| Occupied(m, c) && m[c].time == EarliestEnd(m);
        assert FreeAt(m, c, e.startsAt);
      }
      LastFreeColumnIsHighest(m, e.startsAt);
      var position := LastFreeColumn(m, e.startsAt);
      Placement(Reuse, position, Store(m, position, End(e)), col + 1)
  }

  /**
   * Which branch an event takes on a non-empty column map: a new row exactly
   * when every recorded end is at or before its start, a new column exactly when
   * every recorded end is after it, and otherwise the highest free column, whose
   * entry alone is overwritten. A new row takes column 0 of a map that holds
   * its end alone; the counter moves on unless a row starts.
   */
  lemma PlaceBranches(m: seq<Slot>, col: nat, e: CalEvent)
    requires HasEntry(m)
    ensures var p := Place(m, col, e);
      && (p.branch == NewRow <==> forall c :: Occupied(m, c) ==> m[c].time <= e.startsAt)
      && (p.branch == NewRow ==> p.column == 0 && p.eventMap == [EndsAt(End(e))] && p.nextCol == 1)
      && (p.branch == NewColumn <==> forall c :: Occupied(m, c) ==> e.startsAt < m[c].time)
      && (p.branch == NewColumn ==> p.column == col && p.eventMap == Store(m, col, End(e)))
      && (p.branch == Reuse ==>
            && FreeAt(m, p.column, e.startsAt)
            && (forall c :: FreeAt(m, c, e.startsAt) ==> c <= p.column)
            && p.eventMap == m[p.column := EndsAt(End(e))])
      && (p.branch != NewRow ==> p.nextCol == col + 1)
  {
    LatestEndIsMax(m);
    EarliestEndIsMin(m);
    LastFreeColumnIsHighest(m, e.startsAt);
    var earliest :| Occupied(m, earliest) && m[earliest].time == EarliestEnd(m);
    if EarliestEnd(m) <= e.startsAt {
      assert FreeAt(m, earliest, e.startsAt);
    }
  }

  /** What the sweep relies on from a placement made on column map `m`. */
  ghost predicate Placed(m: seq<Slot>, p: Placement) {
    && p.column < |p.eventMap| && Occupied(p.eventMap, |p.eventMap| - 1)
    && (p.branch == NewRow ==> |m| > 0 && p.column == 0 && |p.eventMap| == 1)
    && (p.branch != NewRow ==> |p.eventMap| >= |m|)
  }

  /**
   * A placement never shrinks the column map except when a row starts, and a
   * counter at or past the map's length stays there.
   */
  lemma PlaceShape(m: seq<Slot>, col: nat, e: CalEvent)
    requires |m| == 0 || Occupied(m, |m| - 1)
    ensures Placed(m, Place(m, col, e))
    ensures col >= |m| ==> Place(m, col, e).nextCol >= |Place(m, col, e).eventMap|
    ensures col >= |m| && Place(m, col, e).branch == NewColumn ==>
              |m| <= |Place(m, col, e).eventMap| && Place(m, col, e).eventMap[..|m|] == m
  {
    if |m| > 0 {
      PlaceBranches(m, col, e);
    }
  }

  /** `arr[i] = v` on an array whose length is at least `i`. */
  function SetAt(s: seq<nat>, i: nat, v: nat): (r: seq<nat>)
    requires i <= |s|
    ensures |r| == if i < |s| then |s| else i + 1
    ensures r[i] == v && forall k :: 0 <= k < |s| && k != i ==> r[k] == s[k]
  {
    if i < |s| then s[i := v] else s + [v]
  }

  /** The loop of setColTotals: `totals[idx] = cols` for every idx from `lo` to `hi`. */
  function Stamp(totals: seq<nat>, lo: nat, hi: nat, cols: nat): (r: seq<nat>)
    requires lo <= |totals|
    ensures |r| == if lo <= hi && |totals| <= hi then hi + 1 else |totals|
    ensures forall i :: 0 <= i < |r| ==> r[i] == if lo <= i <= hi then cols else totals[i]
    decreases hi + 1 - lo
  {
    if lo > hi then totals
    else Stamp(SetAt(totals, lo, cols), lo + 1, hi, cols)
  }

  /**
   * setColTotals on an array of `n` sorted events: only at the last index or
   * when forced, stamp `cols` from the offset up to `index` and move the offset to `index`.
   */
  function ColTotals(totals: seq<nat>, offset: nat, n: nat, index: nat, cols: nat, manualOverride: bool)
    : (seq<nat>, nat)
    requires offset <= |totals|
  {
    if index == n - 1 || manualOverride then (Stamp(totals, offset, index, cols), index)
    else (totals, offset)
  }

  /**
   * setColTotals changes nothing unless `index` is the last one or the call
   * is forced; then every index from the offset to `index` gets `cols`, every
   * other entry stays, and the offset moves to `index`.
   */
  lemma ColTotalsStamps(totals: seq<nat>, offset: nat, n: nat, index: nat, cols: nat, manualOverride: bool)
    requires offset <= |totals|
    ensures var r := ColTotals(totals, offset, n, index, cols, manualOverride);
      && (!(index == n - 1 || manualOverride) ==> r == (totals, offset))
      && (index == n - 1 || manualOverride ==>
            && r.1 == index
            && |r.0| == (if offset <= index && |totals| <= index then index + 1 else |totals|)
            && (forall i :: offset <= i <= index ==> r.0[i] == cols)
            && (forall i :: 0 <= i < |totals| && !(offset <= i <= index) ==> r.0[i] == totals[i]))
  {
  }

  /** The local `eventMap` and `col` of setPositions, with the fields it writes. */
  datatype Sweep = Sweep(eventMap: seq<Slot>, col: nat, positions: seq<nat>, totals: seq<nat>, offset: nat)

  /**
   * The rest of the forEach body of setPositions once `p` is decided for the
   * event at `index` of `n`: record its column, then let setColTotals run.
   */
  function Advance(n: nat, st: Sweep, index: nat, p: Placement): Sweep
    requires st.offset <= |st.totals|
  {
    // A new row stamps the row it closes, before the column map is reset.
    var cols := if p.branch == NewRow then |st.eventMap| else |p.eventMap|;
    var (totals, offset) := ColTotals(st.totals, st.offset, n, index, cols, p.branch == NewRow);
    // `simultaneousEventPositions[index] = column` appends: the array holds `index` entries.
    Sweep(p.eventMap, p.nextCol, st.positions + [p.column], totals, offset)
  }

  /** Every event has at least one column, and its column lies within its row's total. */
  predicate WidthsValid(positions: seq<nat>, totals: seq<nat>, n: nat) {
    |positions| == n && |totals| == n
    && forall i :: 0 <= i < n ==> 1 <= totals[i] && positions[i] < totals[i]
  }

  /** No two events placed in the same column overlap in time. */
  predicate NoSharedColumnOverlap(events: seq<CalEvent>, positions: seq<nat>) {
    |positions| == |events|
    && forall i, j :: 0 <= i < |events| && 0 <= j < |events| && i != j && positions[i] == positions[j]
         ==> !Overlap(events[i], events[j])
  }

  /**
   * The sweep with `k` events in and more to come: the offset marks the first
   * event of the open row, every event before it has been stamped with a total
   * that covers its column, and every event of the open row has a column inside
   * the current column map.
   */
  ghost predicate OpenRow(st: Sweep, k: nat) {
    && |st.positions| == k
    && st.offset <= |st.totals| <= st.offset + 1
    && (if k == 0 then st.offset == 0 else st.offset < k)
    && (forall i :: 0 <= i < st.offset ==> 1 <= st.totals[i] && st.positions[i] < st.totals[i])
    && (forall i :: st.offset <= i < k ==> st.positions[i] < |st.eventMap|)
    && (|st.eventMap| == 0 <==> k == 0)
    && (k > 0 ==> Occupied(st.eventMap, |st.eventMap| - 1))
  }

  /** Stamping the open row with a total that covers all its columns leaves every event so far valid. */
  lemma StampOpenRow(st: Sweep, k: nat, column: nat, cols: nat, next: Sweep)
    requires OpenRow(st, k) && column < cols
    requires forall i :: st.offset <= i < k ==> st.positions[i] < cols
    requires next.positions == st.positions + [column]
    requires next.totals == Stamp(st.totals, st.offset, k, cols)
    ensures WidthsValid(next.positions, next.totals, k + 1)
  {
    forall i | 0 <= i < k + 1
      ensures 1 <= next.totals[i] && next.positions[i] < next.totals[i]
    {
      if i < st.offset {
        assert next.positions[i] == st.positions[i];
      } else if i < k {
        assert next.positions[i] == st.positions[i];
      }
    }
  }

  /** An event placed inside the open row, with no stamping, keeps the open-row shape. */
  lemma ExtendOpenRow(st: Sweep, k: nat, column: nat, next: Sweep)
    requires OpenRow(st, k) && column < |next.eventMap| && |st.eventMap| <= |next.eventMap|
    requires Occupied(next.eventMap, |next.eventMap| - 1)
    requires next.positions == st.positions + [column]
    requires next.totals == st.totals && next.offset == st.offset
    ensures OpenRow(next, k + 1)
  {
    forall i | next.offset <= i < k + 1
      ensures next.positions[i] < |next.eventMap|
    {
      if i < k {
        assert next.positions[i] == st.positions[i];
      }
    }
  }

  /**
   * One event keeps the open row's shape, and the last one leaves every event
   * stamped.
   */
  lemma OpenRowStep(n: nat, st: Sweep, k: nat, p: Placement)
    requires k < n && OpenRow(st, k)
    requires Placed(st.eventMap, p)
    ensures var next := Advance(n, st, k, p);
      && (k + 1 < n ==> OpenRow(next, k + 1))
      && (k + 1 == n ==> WidthsValid(next.positions, next.totals, n))
  {
    var next := Advance(n, st, k, p);
    if p.branch == NewRow {
      StampOpenRow(st, k, 0, |st.eventMap|, next);
    } else if k + 1 == n {
      StampOpenRow(st, k, p.column, |p.eventMap|, next);
    } else {
      ExtendOpenRow(st, k, p.column, next);
    }
  }

  /** One pass of the forEach body of setPositions, for the event at `k`. */
  function Step(events: seq<CalEvent>, st: Sweep, k: nat): (next: Sweep)
    requires k < |events| && st.offset <= |st.totals|
    requires |st.eventMap| == 0 || Occupied(st.eventMap, |st.eventMap| - 1)
    ensures next.offset <= |next.totals|
    ensures Occupied(next.eventMap, |next.eventMap| - 1)
  {
    Advance(|events|, st, k, Place(st.eventMap, st.col, events[k]))
  }

  /** The state of setPositions after the first `k` of `events`. */
  function SweepPrefix(events: seq<CalEvent>, k: nat): (st: Sweep)
    requires k <= |events|
    ensures st.offset <= |st.totals|
    ensures |st.eventMap| == 0 || Occupied(st.eventMap, |st.eventMap| - 1)
  {
    if k == 0 then Sweep([], 0, [], [], 0)
    else Step(events, SweepPrefix(events, k - 1), k - 1)
  }

  /**
   * The shape of the sweep with `k` of `n` events in: the counter never falls
   * behind the column map's length; while events remain the sweep has the
   * open-row shape, and once the last one is in every event is stamped.
   */
  ghost predicate SweepShape(st: Sweep, k: nat, n: nat) {
    && st.col >= |st.eventMap|
    && (k < n ==> OpenRow(st, k))
    && (k == n ==> WidthsValid(st.positions, st.totals, n))
  }

  /** Placing one more event keeps the sweep's shape. */
  lemma ShapeStep(events: seq<CalEvent>, st: Sweep, k: nat)
    requires k < |events|
    ensures SweepShape(st, k, |events|) ==> SweepShape(Step(events, st, k), k + 1, |events|)
  {
    if SweepShape(st, k, |events|) {
      PlaceShape(st.eventMap, st.col, events[k]);
      OpenRowStep(|events|, st, k, Place(st.eventMap, st.col, events[k]));
    }
  }

  /**
   * While events remain the sweep has the open-row shape; once the last one is
   * in, every event has a column total of at least one that covers its column,
   * so the left offset and width the calendar derives from them stay inside the
   * day column.
   */
  lemma {:induction false} SweepPrefixShape(events: seq<CalEvent>, k: nat)
    requires k <= |events|
    ensures SweepShape(SweepPrefix(events, k), k, |events|)
  {
    if k > 0 {
      SweepPrefixShape(events, k - 1);
      ShapeStep(events, SweepPrefix(events, k - 1), k - 1);
    }
  }

  /**
   * What keeps columns apart after `k` sorted events: two of them that share a
   * column follow one another, the earlier ending by the time the later starts;
   * and every event either ended by the start of the latest one or is still the
   * entry recorded for its column.
   */
  ghost predicate Separated(events: seq<CalEvent>, st: Sweep, k: nat)
    requires k <= |events|
  {
    && |st.positions| == k
    && (forall i, j :: 0 <= i < j < k && st.positions[i] == st.positions[j] ==>
          End(events[i]) <= events[j].startsAt)
    && (forall i :: 0 <= i < k ==>
          (End(events[i]) <= events[k - 1].startsAt
           || (st.positions[i] < |st.eventMap| && st.eventMap[st.positions[i]] == EndsAt(End(events[i])))))
  }

  /**
   * Before the event at `k` is placed, every earlier event has either ended by
   * its start or sits in a column other than the one it receives, whose entry
   * the placement leaves alone.
   */
  lemma PlaceSpares(events: seq<CalEvent>, st: Sweep, k: nat)
    requires 0 < k < |events| && SortedByStart(events)
    requires Counted(st, k) && Separated(events, st, k)
    ensures var p := Place(st.eventMap, st.col, events[k]);
      forall i :: 0 <= i < k ==>
        (End(events[i]) <= events[k].startsAt
         || (st.positions[i] != p.column && st.positions[i] < |p.eventMap|
             && p.eventMap[st.positions[i]] == EndsAt(End(events[i]))))
  {
    var m := st.eventMap;
    var e := events[k];
    assert Occupied(m, |m| - 1);
    PlaceBranches(m, st.col, e);
    var p := Place(m, st.col, e);
    forall i | 0 <= i < k && events[k].startsAt < End(events[i])
      ensures st.positions[i] != p.column && st.positions[i] < |p.eventMap|
      ensures p.eventMap[st.positions[i]] == EndsAt(End(events[i]))
    {
      assert events[k - 1].startsAt <= e.startsAt;
      var c := st.positions[i];
      assert Occupied(m, c);
      if p.branch == Reuse {
        assert !FreeAt(m, c, e.startsAt);
      }
    }
  }

  /** Placing the next sorted event keeps columns apart. */
  lemma SeparatedStep(events: seq<CalEvent>, st: Sweep, k: nat, next: Sweep)
    requires k < |events| && SortedByStart(events) && Counted(st, k)
    requires next == Step(events, st, k) && Separated(events, st, k)
    ensures Separated(events, next, k + 1)
  {
    var e := events[k];
    var p := Place(st.eventMap, st.col, e);
    assert next == Advance(|events|, st, k, p);
    assert next.positions == st.positions + [p.column];
    if k > 0 {
      PlaceSpares(events, st, k);
    }
    forall i, j | 0 <= i < j < k + 1 && next.positions[i] == next.positions[j]
      ensures End(events[i]) <= events[j].startsAt
    {
      assert next.positions[i] == st.positions[i];
    }
    forall i | 0 <= i < k + 1
      ensures End(events[i]) <= e.startsAt
              || (next.positions[i] < |next.eventMap| && next.eventMap[next.positions[i]] == EndsAt(End(events[i])))
    {
      if i < k {
        assert next.positions[i] == st.positions[i];
      }
    }
  }

  /** The facts about the column map and counter that keeping columns apart relies on. */
  ghost predicate Counted(st: Sweep, k: nat) {
    && st.col >= |st.eventMap|
    && st.offset <= |st.totals|
    && (|st.eventMap| == 0 <==> k == 0)
    && (|st.eventMap| == 0 || Occupied(st.eventMap, |st.eventMap| - 1))
  }

  lemma SweepPrefixCounted(events: seq<CalEvent>, k: nat)
    requires k < |events|
    ensures Counted(SweepPrefix(events, k), k)
  {
    SweepPrefixShape(events, k);
  }

  lemma {:induction false} SweepPrefixSeparated(events: seq<CalEvent>, k: nat)
    requires k <= |events| && SortedByStart(events)
    ensures Separated(events, SweepPrefix(events, k), k)
  {
    if k > 0 {
      SweepPrefixSeparated(events, k - 1);
      SweepPrefixCounted(events, k - 1);
      SeparatedStep(events, SweepPrefix(events, k - 1), k - 1, SweepPrefix(events, k));
    }
  }

  /**
   * On events sorted by start, the sweep never gives one column to two events
   * that overlap in time.
   */
  lemma LayoutNoOverlap(events: seq<CalEvent>)
    requires SortedByStart(events)
    ensures NoSharedColumnOverlap(events, SweepPrefix(events, |events|).positions)
  {
    var positions := SweepPrefix(events, |events|).positions;
    SweepPrefixSeparated(events, |events|);
    forall i, j | 0 <= i < |events| && 0 <= j < |events| && i != j && positions[i] == positions[j]
      ensures !Overlap(events[i], events[j])
    {
      if i < j {
        assert End(events[i]) <= events[j].startsAt;
      } else {
        assert End(events[j]) <= events[i].startsAt;
      }
    }
  }

  /**
   * In the sweep a new column never lands on a recorded column: the counter
   * is never behind the column map, so every earlier entry survives.
   */
  lemma SweepNewColumnKeepsMap(events: seq<CalEvent>, k: nat)
    requires k < |events|
    ensures var st := SweepPrefix(events, k);
      var p := Place(st.eventMap, st.col, events[k]);
      p.branch == NewColumn ==> |st.eventMap| < |p.eventMap| && p.eventMap[..|st.eventMap|] == st.eventMap
  {
    var st := SweepPrefix(events, k);
    SweepPrefixShape(events, k);
    PlaceShape(st.eventMap, st.col, events[k]);
  }
}

=== FILE: events_calendar.dfy ===
/**
 * The class-based calendar draft: an object that sorts a copy of the events,
 * assigns each a column and a column total by updating its fields, and the
 * hour and time labels it shows.
 */
module Events {
  import opened CalendarData
  import opened ColumnLayout

  class EventsCalendar {
    /** The first hour shown, on the 24-hour clock. */
    const startTime: int := 9
    /** Number of hours the day column spans. */
    const hoursInCalDay: int := 12
    /** Vertical pixels per hour: the calendar's setting, used only by the pixel arithmetic left out here. */
    const hourInPixels: int := 60

    /** Copy of the events, sorted by start. */
    var sortedEvents: seq<CalEvent>
    /** Zero-based column of each sorted event. */
    var simultaneousEventPositions: seq<nat>
    /** Number of columns of the row each sorted event belongs to. */
    var eventColTotals: seq<nat>
    /** First index whose column total has not been settled. */
    var eventColTotalsOffset: nat

    /**
     * Rejects anything but a non-empty array of events and leaves the object
     * empty; otherwise sorts a copy and lays it out. On a supplied array every
     * event ends up with a column inside its row's total, and no two events
     * that share a column overlap in time.
     */
    constructor (calEvents: EventsArg)
      ensures !SuppliesEvents(calEvents) ==>
                sortedEvents == [] && simultaneousEventPositions == [] && eventColTotals == []
                && eventColTotalsOffset == 0
      ensures SuppliesEvents(calEvents) ==>
                && sortedEvents == SortByStart(calEvents.events)
                && simultaneousEventPositions == SweepPrefix(sortedEvents, |sortedEvents|).positions
                && eventColTotals == SweepPrefix(sortedEvents, |sortedEvents|).totals
                && eventColTotalsOffset == SweepPrefix(sortedEvents, |sortedEvents|).offset
      ensures SuppliesEvents(calEvents) ==>
                && SortedByStart(sortedEvents)
                && multiset(sortedEvents) == multiset(calEvents.events)
                && WidthsValid(simultaneousEventPositions, eventColTotals, |sortedEvents|)
                && NoSharedColumnOverlap(sortedEvents, simultaneousEventPositions)
    {
      sortedEvents := [];
      simultaneousEventPositions := [];
      eventColTotals := [];
      eventColTotalsOffset := 0;
      new;
      if SuppliesEvents(calEvents) {
        SortEvents(calEvents.events);
        SetPositions();
      }
    }

    /** `sortedEvents` becomes a copy of the events in stable start order. */
    method SortEvents(calEvents: seq<CalEvent>)
      modifies this`sortedEvents
      ensures sortedEvents == SortByStart(calEvents)
      ensures SortedByStart(sortedEvents) && multiset(sortedEvents) == multiset(calEvents)
    {
      sortedEvents := SortByStart(calEvents);
      SortByStartCorrect(calEvents);
    }

    /**
     * Only at the last event or when forced: stamp the column count of
     * `eventMap` on every index from the offset up to `index`, then move the
     * offset to `index`.
     */
    method SetColTotals(index: nat, eventMap: seq<Slot>, manualOverride: bool)
      requires eventColTotalsOffset <= |eventColTotals|
      modifies this`eventColTotals, this`eventColTotalsOffset
      ensures (eventColTotals, eventColTotalsOffset)
              == ColTotals(old(eventColTotals), old(eventColTotalsOffset), |sortedEvents|, index, |eventMap|,
                           manualOverride)
    {
      if index == |sortedEvents| - 1 || manualOverride {
        var cols := |eventMap|;
        var idx := eventColTotalsOffset;
        while idx <= index
          invariant idx <= |eventColTotals|
          invariant Stamp(eventColTotals, idx, index, cols)
                    == Stamp(old(eventColTotals), old(eventColTotalsOffset), index, cols)
        {
          eventColTotals := SetAt(eventColTotals, idx, cols);
          idx := idx + 1;
        }
        eventColTotalsOffset := index;
      }
    }

    /**
     * The hour labels of the calendar's hour blocks, from the first hour to
     * the hour the day ends, both included.
     */
    method CalHourLabels() returns (labels: seq<HourLabel>)
      ensures |labels| == hoursInCalDay + 1
      ensures forall i :: 0 <= i < |labels| ==> labels[i] == GetCalHourLabel(startTime + i)
      ensures forall i :: 0 <= i < |labels| ==> ClockHour(labels[i]) == startTime + i
    {
      var endTime := startTime + hoursInCalDay;
      labels := [];
      var h := startTime;
      while h < endTime + 1
        invariant startTime <= h <= endTime + 1
        invariant |labels| == h - startTime
        invariant forall i :: 0 <= i < |labels| ==> labels[i] == GetCalHourLabel(startTime + i)
      {
        labels := labels + [GetCalHourLabel(h)];
        h := h + 1;
      }
    }

    /**
     * The forEach of setPositions over the sorted events, with its local
     * column map and column counter: each event takes a column and the row
     * totals are stamped as rows close. Runs on the object's fresh layout
     * fields, as the constructor leaves them.
     */
    method SetPositions()
      requires simultaneousEventPositions == [] && eventColTotals == [] && eventColTotalsOffset == 0
      modifies this`simultaneousEventPositions, this`eventColTotals, this`eventColTotalsOffset
      ensures simultaneousEventPositions == SweepPrefix(sortedEvents, |sortedEvents|).positions
      ensures eventColTotals == SweepPrefix(sortedEvents, |sortedEvents|).totals
      ensures eventColTotalsOffset == SweepPrefix(sortedEvents, |sortedEvents|).offset
      ensures WidthsValid(simultaneousEventPositions, eventColTotals, |sortedEvents|)
      ensures SortedByStart(sortedEvents) ==> NoSharedColumnOverlap(sortedEvents, simultaneousEventPositions)
    {
      var eventMap: seq<Slot> := [];
      var col: nat := 0;
      var index := 0;
      while index < |sortedEvents|
        invariant index <= |sortedEvents|
        invariant Sweep(eventMap, col, simultaneousEventPositions, eventColTotals, eventColTotalsOffset)
                  == SweepPrefix(sortedEvents, index)
      {
        eventMap, col := PositionEvent(index, eventMap, col);
        index := index + 1;
        assert SweepPrefix(sortedEvents, index) == Step(sortedEvents, SweepPrefix(sortedEvents, index - 1), index - 1);
      }
      SweepPrefixShape(sortedEvents, |sortedEvents|);
      if SortedByStart(sortedEvents) {
        LayoutNoOverlap(sortedEvents);
      }
    }

    /**
     * The body of the forEach in setPositions for the event at `index`, given
     * the column map and counter so far: the first column, a new row, a new
     * column or the highest free column.
     */
    method PositionEvent(index: nat, eventMap: seq<Slot>, col: nat) returns (eventMap': seq<Slot>, col': nat)
      requires index < |sortedEvents| && eventColTotalsOffset <= |eventColTotals|
      requires |eventMap| == 0 || Occupied(eventMap, |eventMap| - 1)
      modifies this`simultaneousEventPositions, this`eventColTotals, this`eventColTotalsOffset
      ensures Sweep(eventMap', col', simultaneousEventPositions, eventColTotals, eventColTotalsOffset)
              == Step(sortedEvents,
                      Sweep(eventMap, col, old(simultaneousEventPositions), old(eventColTotals),
                            old(eventColTotalsOffset)),
                      index)
    {
      ghost var prev := Sweep(eventMap, col, simultaneousEventPositions, eventColTotals, eventColTotalsOffset);
      var event := sortedEvents[index];
      ghost var p := Place(eventMap, col, event);
      var startTime := event.startsAt;
      var endTime := event.startsAt + event.duration;
      eventMap' := eventMap;
      if |eventMap'| == 0 {
        // First column.
        eventMap' := Store(eventMap', col, endTime);
        simultaneousEventPositions := simultaneousEventPositions + [col];
        SetColTotals(index, eventMap', false);
        col' := col + 1;
        assert p == Placement(FirstColumn, col, eventMap', col');
      } else {
        assert Occupied(eventMap, |eventMap| - 1);
        PlaceBranches(eventMap, col, event);
        var latestEndTime := LatestEnd(eventMap');
        var earliestEndTime := EarliestEnd(eventMap');
        if startTime >= latestEndTime {
          // Every column is free: close the row and start a new one.
          SetColTotals(index, eventMap', true);
          col' := 0;
          eventMap' := [];
          eventMap' := Store(eventMap', col', endTime);
          simultaneousEventPositions := simultaneousEventPositions + [col'];
          col' := col' + 1;
          assert p == Placement(NewRow, 0, eventMap', col');
        } else if startTime < earliestEndTime {
          // No column is free: add one.
          eventMap' := Store(eventMap', col, endTime);
          simultaneousEventPositions := simultaneousEventPositions + [col];
          SetColTotals(index, eventMap', false);
          col' := col + 1;
          assert p == Placement(NewColumn, col, eventMap', col');
        } else {
          // Reuse the highest free column.
          var position: nat := LastFreeColumn(eventMap', startTime);
          eventMap' := Store(eventMap', position, endTime);
          simultaneousEventPositions := simultaneousEventPositions + [position];
          SetColTotals(index, eventMap', false);
          col' := col + 1;
          assert p == Placement(Reuse, position, eventMap', col');
        }
      }
      assert Sweep(eventMap', col', simultaneousEventPositions, eventColTotals, eventColTotalsOffset)
             == Advance(|sortedEvents|, prev, index, p);
    }
  }

  datatype Meridiem = AM | PM

  /** An hour label such as "9 AM": the hour as printed and its suffix. */
  datatype HourLabel = HourLabel(hour: int, meridiem: Meridiem)

  /** The hour of the 24-hour clock that a 12-hour reading names: 12 AM is midnight, 12 PM is noon. */
  function ClockHour(l: HourLabel): int {
    l.hour % 12 + (if l.meridiem == PM then 12 else 0)
  }

  /**
   * getCalHourLabel: hours up to 12 print as they are, later ones less 12, and
   * the suffix is PM from noon on. Every hour of the day reads back as itself,
   * and the hours the calendar shows print as 1 to 12.
   */
  function GetCalHourLabel(h: int): (l: HourLabel)
    ensures l.meridiem == PM <==> h >= 12
    ensures 0 <= h < 24 ==> ClockHour(l) == h
    ensures 1 <= h <= 24 ==> 1 <= l.hour <= 12
  {
    var hour := if h <= 12 then h else h - 12;
    var hourLabel := if h >= 12 then PM else AM;
    HourLabel(hour, hourLabel)
  }

  /**
   * A time label such as "9:30 AM": the hour as printed, the minutes past it
   * (left off the printed label when zero) and the suffix.
   */
  datatype TimeLabel = TimeLabel(hour: int, minutes: int, meridiem: Meridiem)

  /** The minute of the 24-hour day that a time label names. */
  function ClockMinutes(t: TimeLabel): int {
    ClockHour(HourLabel(t.hour, t.meridiem)) * 60 + t.minutes
  }

  /**
   * calcTime on whole minutes: the hour is the first hour plus the whole hours
   * elapsed, the minutes are what is left, and only hours after 12 are reduced
   * by 12 and marked PM. JavaScript's `Math.floor` of the quotient agrees with
   * Euclidean division here, negative minutes included.
   */
  function CalcTime(startTime: int, minutesFromStart: int): (t: TimeLabel)
    ensures 0 <= t.minutes < 60
    ensures (t.minutes == 0) <==> minutesFromStart % 60 == 0
    ensures t.meridiem == PM <==> startTime + minutesFromStart / 60 > 12
    ensures t.minutes == minutesFromStart % 60
    ensures 1 <= startTime + minutesFromStart / 60 <= 24 ==> 1 <= t.hour <= 12
    ensures startTime + minutesFromStart / 60 == 12 ==> t.hour == 12
    ensures 0 <= startTime * 60 + minutesFromStart < 24 * 60 && startTime + minutesFromStart / 60 != 12 ==>
              ClockMinutes(t) == startTime * 60 + minutesFromStart
  {
    var rhours := startTime + minutesFromStart / 60;
    var rminutes := minutesFromStart % 60;
    if 12 < rhours then TimeLabel(rhours - 12, rminutes, PM)
    else TimeLabel(rhours, rminutes, AM)
  }

  /**
   * calcTime as intended: the hour is labelled as getCalHourLabel labels it,
   * so noon reads as 12 PM.
   */
  function CalcTimeCorrected(startTime: int, minutesFromStart: int): (t: TimeLabel)
    ensures 0 <= t.minutes < 60
    ensures 0 <= startTime * 60 + minutesFromStart < 24 * 60 ==>
              ClockMinutes(t) == startTime * 60 + minutesFromStart
  {
    var l := GetCalHourLabel(startTime + minutesFromStart / 60);
    TimeLabel(l.hour, minutesFromStart % 60, l.meridiem)
  }

  /**
   * Within the day, calcTime's label names the right time in every hour but
   * the noon hour, which it marks AM and so names the midnight hour: twelve
   * hours early.
   */
  lemma CalcTimeMisreadsNoon(startTime: int, minutesFromStart: int)
    requires 0 <= startTime * 60 + minutesFromStart < 24 * 60
    ensures ClockMinutes(CalcTime(startTime, minutesFromStart)) == startTime * 60 + minutesFromStart
            <==> startTime + minutesFromStart / 60 != 12
    ensures startTime + minutesFromStart / 60 == 12 ==>
              ClockMinutes(CalcTime(startTime, minutesFromStart)) == startTime * 60 + minutesFromStart - 12 * 60
  {
  }

  /** On the calendar's 9 AM start, three hours in reads "12 AM", which is midnight. */
  lemma CalcTimeNoonExample()
    ensures CalcTime(9, 180) == TimeLabel(12, 0, AM)
    ensures ClockMinutes(CalcTime(9, 180)) == 0
    ensures ClockMinutes(CalcTimeCorrected(9, 180)) == 12 * 60
  {
  }
}

=== FILE: layout_examples.dfy ===
/**
 * Worked layouts: the sweep of setPositions on small sorted inputs, showing
 * each of its branches and its two quirks (holes counted in a row's total,
 * and a last event that opens a row keeping the closed row's total). Each
 * input is laid out one event at a time, one lemma per event.
 */
module LayoutExamples {
  import opened CalendarData
  import opened ColumnLayout

  /** The sweep after `k` events is one step on from the sweep after `k - 1`. */
  lemma Chain(events: seq<CalEvent>, k: nat, prev: Sweep, next: Sweep)
    requires 0 < k <= |events|
    requires SweepPrefix(events, k - 1) == prev
    requires Step(events, prev, k - 1) == next
    ensures SweepPrefix(events, k) == next
  {
  }

  // Holes: a long event, a short one beside it, a third that reuses the short
  // one's column, and a fourth that needs a new column. The counter moved on
  // after the reuse, so the new column skips index 2.

  const holeEvents := [CalEvent(0, 100), CalEvent(10, 20), CalEvent(40, 10), CalEvent(45, 10)]

  lemma HoleFirst()
    ensures Step(holeEvents, Sweep([], 0, [], [], 0), 0) == Sweep([EndsAt(100)], 1, [0], [], 0)
  {
  }

  lemma HoleNewColumn()
    ensures Step(holeEvents, Sweep([EndsAt(100)], 1, [0], [], 0), 1)
            == Sweep([EndsAt(100), EndsAt(30)], 2, [0, 1], [], 0)
  {
  }

  lemma HoleReuse()
    ensures Step(holeEvents, Sweep([EndsAt(100), EndsAt(30)], 2, [0, 1], [], 0), 2)
            == Sweep([EndsAt(100), EndsAt(50)], 3, [0, 1, 1], [], 0)
  {
  }

  lemma HoleSkip()
    ensures Step(holeEvents, Sweep([EndsAt(100), EndsAt(50)], 3, [0, 1, 1], [], 0), 3)
            == Sweep([EndsAt(100), EndsAt(50), Hole, EndsAt(55)], 4, [0, 1, 1, 3], [4, 4, 4, 4], 3)
  {
  }

  /** The fourth event gets column 3, leaving a hole at 2 that counts towards the row's total of 4. */
  lemma HoleExample()
    ensures SweepPrefix(holeEvents, 4).eventMap == [EndsAt(100), EndsAt(50), Hole, EndsAt(55)]
    ensures SweepPrefix(holeEvents, 4).positions == [0, 1, 1, 3]
    ensures SweepPrefix(holeEvents, 4).totals == [4, 4, 4, 4]
  {
    var s0 := Sweep([], 0, [], [], 0);
    var s1 := Sweep([EndsAt(100)], 1, [0], [], 0);
    var s2 := Sweep([EndsAt(100), EndsAt(30)], 2, [0, 1], [], 0);
    var s3 := Sweep([EndsAt(100), EndsAt(50)], 3, [0, 1, 1], [], 0);
    HoleFirst();
    HoleNewColumn();
    HoleReuse();
    HoleSkip();
    Chain(holeEvents, 1, s0, s1);
    Chain(holeEvents, 2, s1, s2);
    Chain(holeEvents, 3, s2, s3);
    Chain(holeEvents, 4, s3, Step(holeEvents, s3, 3));
  }

  // A last event that starts a new row is stamped with the row it closes.

  const lastRowEvents := [CalEvent(0, 60), CalEvent(30, 60), CalEvent(200, 10)]

  lemma LastRowFirst()
    ensures Step(lastRowEvents, Sweep([], 0, [], [], 0), 0) == Sweep([EndsAt(60)], 1, [0], [], 0)
  {
  }

  lemma LastRowNewColumn()
    ensures Step(lastRowEvents, Sweep([EndsAt(60)], 1, [0], [], 0), 1)
            == Sweep([EndsAt(60), EndsAt(90)], 2, [0, 1], [], 0)
  {
  }

  lemma LastRowNewRow()
    ensures Step(lastRowEvents, Sweep([EndsAt(60), EndsAt(90)], 2, [0, 1], [], 0), 2)
            == Sweep([EndsAt(210)], 1, [0, 1, 0], [2, 2, 2], 2)
  {
  }

  /** The last event is alone in its row, yet its total is 2, so it is drawn at half width. */
  lemma LastRowExample()
    ensures SweepPrefix(lastRowEvents, 3).positions == [0, 1, 0]
    ensures SweepPrefix(lastRowEvents, 3).totals == [2, 2, 2]
  {
    var s0 := Sweep([], 0, [], [], 0);
    var s1 := Sweep([EndsAt(60)], 1, [0], [], 0);
    var s2 := Sweep([EndsAt(60), EndsAt(90)], 2, [0, 1], [], 0);
    LastRowFirst();
    LastRowNewColumn();
    LastRowNewRow();
    Chain(lastRowEvents, 1, s0, s1);
    Chain(lastRowEvents, 2, s1, s2);
    Chain(lastRowEvents, 3, s2, Step(lastRowEvents, s2, 2));
  }

  // The second sample array of the repository.

  const sampleEvents := [CalEvent(75, 60), CalEvent(440, 20), CalEvent(460, 120), CalEvent(120, 45)]
  const sampleSorted := [CalEvent(75, 60), CalEvent(120, 45), CalEvent(440, 20), CalEvent(460, 120)]

  lemma SampleSorts()
    ensures SortByStart(sampleEvents) == sampleSorted
  {
  }

  lemma SampleFirst()
    ensures Step(sampleSorted, Sweep([], 0, [], [], 0), 0) == Sweep([EndsAt(135)], 1, [0], [], 0)
  {
  }

  lemma SampleNewColumn()
    ensures Step(sampleSorted, Sweep([EndsAt(135)], 1, [0], [], 0), 1)
            == Sweep([EndsAt(135), EndsAt(165)], 2, [0, 1], [], 0)
  {
  }

  lemma SampleNewRow()
    ensures Step(sampleSorted, Sweep([EndsAt(135), EndsAt(165)], 2, [0, 1], [], 0), 2)
            == Sweep([EndsAt(460)], 1, [0, 1, 0], [2, 2, 2], 2)
  {
  }

  lemma SampleTouching()
    ensures Step(sampleSorted, Sweep([EndsAt(460)], 1, [0, 1, 0], [2, 2, 2], 2), 3)
            == Sweep([EndsAt(580)], 1, [0, 1, 0, 0], [2, 2, 1, 1], 3)
  {
  }

  /**
   * Sorted, the sample is two overlapping events, then two rows of one: the
   * event that starts as the third one ends does not share its row, and the
   * third event's total, first stamped 2, is stamped again with 1.
   */
  lemma SampleEventsLayout()
    ensures SortByStart(sampleEvents) == sampleSorted
    ensures SweepPrefix(sampleSorted, 4).positions == [0, 1, 0, 0]
    ensures SweepPrefix(sampleSorted, 4).totals == [2, 2, 1, 1]
  {
    var s0 := Sweep([], 0, [], [], 0);
    var s1 := Sweep([EndsAt(135)], 1, [0], [], 0);
    var s2 := Sweep([EndsAt(135), EndsAt(165)], 2, [0, 1], [], 0);
    var s3 := Sweep([EndsAt(460)], 1, [0, 1, 0], [2, 2, 2], 2);
    SampleSorts();
    SampleFirst();
    SampleNewColumn();
    SampleNewRow();
    SampleTouching();
    Chain(sampleSorted, 1, s0, s1);
    Chain(sampleSorted, 2, s1, s2);
    Chain(sampleSorted, 3, s2, s3);
    Chain(sampleSorted, 4, s3, Step(sampleSorted, s3, 3));
  }
}

=== FILE: render_events.dfy ===
/**
 * The earlier, object-literal calendar draft: it keeps the events it was
 * given, checks them, sorts a copy, and while rendering gives every event an
 * equal share of the width with the events kept on its list of simultaneous
 * events. The list is meant to hold the events still running; as written, its
 * removal drops entries from the end instead.
 */
module RenderEvents {
  import opened CalendarData
  import opened Events

  /** A rendered event still listed as simultaneous: its index in sorted order and its end minute. */
  datatype SimEvent = SimEvent(id: nat, endTime: int)

  /** Where an event sits across the day column: slot `left` of `count` equal slots. */
  datatype EventSlot = EventSlot(left: nat, count: nat)

  /**
   * getHourLabel: hours after 12 lose 12 and are PM, every other hour is
   * printed as it is with AM.
   */
  function GetHourLabel(h: int): (l: HourLabel)
    ensures l.meridiem == PM <==> h > 12
  {
    if h > 12 then HourLabel(h - 12, PM) else HourLabel(h, AM)
  }

  /**
   * The two drafts label every hour alike except noon, which this one prints
   * as "12 AM", the label of midnight.
   */
  lemma HourLabelsDifferAtNoon(h: int)
    ensures GetHourLabel(h) == GetCalHourLabel(h) <==> h != 12
    ensures GetHourLabel(12) == HourLabel(12, AM) && ClockHour(GetHourLabel(12)) == 0
  {
  }

  /** Counts the entries of `s` that ended strictly before minute `start`. */
  function CountExpired(s: seq<SimEvent>, start: int): (n: nat)
    ensures n <= |s|
  {
    if s == [] then 0
    else CountExpired(s[..|s| - 1], start) + (if start > s[|s| - 1].endTime then 1 else 0)
  }

  /**
   * The entries that are still running at minute `start`, in their order:
   * what updateSimultaneousEvents evidently means to keep.
   */
  function StillRunning(s: seq<SimEvent>, start: int): (r: seq<SimEvent>)
    ensures |r| <= |s|
  {
    if s == [] then []
    else (if start > s[0].endTime then [] else [s[0]]) + StillRunning(s[1..], start)
  }

  /** An entry is kept exactly when it is listed and has not ended before `start`. */
  lemma {:induction false} StillRunningMembers(s: seq<SimEvent>, start: int)
    ensures forall x :: x in StillRunning(s, start) <==> x in s && !(start > x.endTime)
  {
    if s != [] {
      StillRunningMembers(s[1..], start);
      assert s == [s[0]] + s[1..];
    }
  }

  lemma {:induction false} CountExpiredCons(x: SimEvent, s: seq<SimEvent>, start: int)
    ensures CountExpired([x] + s, start) == (if start > x.endTime then 1 else 0) + CountExpired(s, start)
    decreases |s|
  {
    if s != [] {
      CountExpiredCons(x, s[..|s| - 1], start);
      assert ([x] + s)[..|[x] + s| - 1] == [x] + s[..|s| - 1];
    }
  }

  /**
   * The finished entries the written removal counts and the running entries
   * the intended removal keeps make up the whole list.
   */
  lemma {:induction false} CountExpiredComplementsStillRunning(s: seq<SimEvent>, start: int)
    ensures CountExpired(s, start) + |StillRunning(s, start)| == |s|
  {
    if s != [] {
      CountExpiredComplementsStillRunning(s[1..], start);
      CountExpiredCons(s[0], s[1..], start);
      assert [s[0]] + s[1..] == s;
    }
  }

  predicate IncreasingIds(s: seq<SimEvent>) {
    forall a, b :: 0 <= a < b < |s| ==> s[a].id < s[b].id
  }

  /** Every listed event has an id below `bound`. */
  predicate IdsBelow(s: seq<SimEvent>, bound: int) {
    forall j :: 0 <= j < |s| ==> s[j].id < bound
  }

  /** Dropping the finished entries keeps the rest in order. */
  lemma {:induction false} StillRunningKeepsOrder(s: seq<SimEvent>, start: int)
    requires IncreasingIds(s)
    ensures IncreasingIds(StillRunning(s, start))
  {
    if s != [] {
      StillRunningKeepsOrder(s[1..], start);
      StillRunningMembers(s[1..], start);
      var rest := StillRunning(s[1..], start);
      forall k | 0 <= k < |rest|
        ensures s[0].id < rest[k].id
      {
        assert rest[k] in s[1..];
      }
    }
  }

  /**
   * updateSimultaneousEvents as written. The first loop records the position
   * of every entry that ended strictly before `start`. The second loop looks
   * each recorded position up among the entries; a number is never one of
   * them, so the lookup yields -1, and `splice(-1)` removes the last entry.
   * The list therefore loses as many entries from its end as there were
   * finished ones, whichever those were.
   */
  method UpdateSimultaneousEvents(simEvents: seq<SimEvent>, start: int) returns (r: seq<SimEvent>)
    ensures r == simEvents[..|simEvents| - CountExpired(simEvents, start)]
  {
    r := simEvents;
    if |r| > 0 {
      var toRemove: seq<int> := [];
      for k := 0 to |r|
        invariant |toRemove| == CountExpired(r[..k], start)
        invariant forall j :: 0 <= j < |toRemove| ==> 0 <= toRemove[j] < k
      {
        assert r[..k + 1][..k] == r[..k];
        if start > r[k].endTime {
          toRemove := toRemove + [k];
        }
      }
      assert r[..|r|] == r;
      for j := 0 to |toRemove|
        invariant r == simEvents[..|simEvents| - j]
      {
        // indexOf of a number among the entries: -1, so splice(-1) drops the last one.
        if |r| > 0 {
          r := r[..|r| - 1];
        }
      }
    }
  }

  /**
   * On [ends 30, ends 100] at minute 50 the first entry has finished and the
   * second is still running, yet the written removal keeps the first and drops
   * the second; keeping the running ones keeps the second.
   */
  lemma SpliceDropsRunningEvent()
    ensures var s := [SimEvent(0, 30), SimEvent(1, 100)];
      && s[..|s| - CountExpired(s, 50)] == [SimEvent(0, 30)]
      && StillRunning(s, 50) == [SimEvent(1, 100)]
  {
    var s := [SimEvent(0, 30), SimEvent(1, 100)];
    assert s[..1] == [SimEvent(0, 30)];
  }

  /**
   * The width pass of renderEvents for one event: with `n` simultaneous
   * events listed, each is moved to slot `idx` of `n + 1`, its place in the
   * list; no other event's slot changes.
   */
  method Relayout(slots: seq<EventSlot>, simEvents: seq<SimEvent>) returns (r: seq<EventSlot>)
    requires IncreasingIds(simEvents)
    requires forall k :: 0 <= k < |simEvents| ==> simEvents[k].id < |slots|
    ensures r == Relaid(slots, simEvents, |simEvents|)
    ensures |r| == |slots|
    ensures forall idx :: 0 <= idx < |simEvents| ==> r[simEvents[idx].id] == EventSlot(idx, |simEvents| + 1)
    ensures forall j :: 0 <= j < |slots| && (forall k :: 0 <= k < |simEvents| ==> simEvents[k].id != j) ==>
              r[j] == slots[j]
  {
    r := slots;
    var n := |simEvents|;
    for idx := 0 to n
      invariant r == Relaid(slots, simEvents, idx)
    {
      r := r[simEvents[idx].id := EventSlot(idx, n + 1)];
    }
    RelaidMoves(slots, simEvents, n);
  }

  /**
   * The first `idx` moves of the width pass, in list order: the entry at `k`
   * moves to slot `k` of `|listed| + 1`. An id outside the slots moves nothing.
   */
  function Relaid(slots: seq<EventSlot>, listed: seq<SimEvent>, idx: nat): (r: seq<EventSlot>)
    requires idx <= |listed|
    ensures |r| == |slots|
  {
    if idx == 0 then slots
    else
      var prev := Relaid(slots, listed, idx - 1);
      var id := listed[idx - 1].id;
      if id < |prev| then prev[id := EventSlot(idx - 1, |listed| + 1)] else prev
  }

  /**
   * Every move of the first `idx` lands: with distinct ids, the entry at `k`
   * holds slot `k` of `|listed| + 1`, and a slot no such entry names is as it was.
   */
  lemma {:induction false} RelaidMoves(slots: seq<EventSlot>, listed: seq<SimEvent>, idx: nat)
    requires idx <= |listed| && IncreasingIds(listed)
    requires forall k :: 0 <= k < |listed| ==> listed[k].id < |slots|
    ensures forall k :: 0 <= k < idx ==> Relaid(slots, listed, idx)[listed[k].id] == EventSlot(k, |listed| + 1)
    ensures forall j :: 0 <= j < |slots| && (forall k :: 0 <= k < idx ==> listed[k].id != j) ==>
              Relaid(slots, listed, idx)[j] == slots[j]
  {
    if idx > 0 {
      RelaidMoves(slots, listed, idx - 1);
    }
  }

  /** The slots given so far, one per sorted event, and the list of simultaneous events. */
  datatype Rendering = Rendering(slots: seq<EventSlot>, simEvents: seq<SimEvent>)

  /**
   * One pass of the forEach body of renderEvents for the event at `i`, once
   * the list is updated to `listed`: the listed events are re-laid, the new
   * event takes the last of the equal slots, and it is listed last.
   */
  function RenderStep(slots: seq<EventSlot>, listed: seq<SimEvent>, i: nat, e: CalEvent): Rendering {
    Rendering(Relaid(slots, listed, |listed|) + [EventSlot(|listed|, |listed| + 1)],
              listed + [SimEvent(i, End(e))])
  }

  /** A pass lists the new event after the listed ones, so the ids stay increasing and below `i + 1`. */
  lemma RenderStepIds(slots: seq<EventSlot>, listed: seq<SimEvent>, i: nat, e: CalEvent, r: Rendering)
    requires IncreasingIds(listed) && IdsBelow(listed, i)
    requires r == RenderStep(slots, listed, i, e)
    ensures IncreasingIds(r.simEvents) && IdsBelow(r.simEvents, i + 1)
  {
  }

  /**
   * With `i` slots and the listed ids increasing and below `i`, a pass gives
   * the listed events slots 0 to n - 1 of n + 1 and the new one slot n, and
   * leaves every other slot alone.
   */
  lemma RenderStepSlots(slots: seq<EventSlot>, listed: seq<SimEvent>, i: nat, e: CalEvent, r: Rendering)
    requires |slots| == i
    requires IncreasingIds(listed) && IdsBelow(listed, i)
    requires r == RenderStep(slots, listed, i, e)
    ensures && |r.slots| == i + 1
      && (forall k :: 0 <= k < |r.simEvents| ==>
            r.simEvents[k].id < |r.slots| && r.slots[r.simEvents[k].id] == EventSlot(k, |r.simEvents|))
      && (forall j :: 0 <= j < i && (forall k :: 0 <= k < |listed| ==> listed[k].id != j) ==>
            r.slots[j] == slots[j])
  {
    RelaidMoves(slots, listed, |listed|);
  }

  /** A pass keeps every slot inside the day column. */
  lemma RenderStepInside(slots: seq<EventSlot>, listed: seq<SimEvent>, i: nat, e: CalEvent, r: Rendering)
    requires |slots| == i
    requires IncreasingIds(listed) && IdsBelow(listed, i)
    requires forall j :: 0 <= j < i ==> slots[j].left < slots[j].count
    requires r == RenderStep(slots, listed, i, e)
    ensures forall j :: 0 <= j < i + 1 ==> r.slots[j].left < r.slots[j].count
  {
    var n := |listed|;
    RelaidMoves(slots, listed, n);
    var relaid := Relaid(slots, listed, n);
    forall j | 0 <= j < i
      ensures relaid[j].left < relaid[j].count
    {
      if k :| 0 <= k < n && listed[k].id == j {
        assert relaid[j] == EventSlot(k, n + 1);
      }
    }
  }

  /**
   * The list of simultaneous events once the event starting at `start` is
   * reached: shortened by the written removal, or, when `intended`, rid of
   * the finished events.
   */
  function Listed(simEvents: seq<SimEvent>, start: int, intended: bool): seq<SimEvent> {
    if intended then StillRunning(simEvents, start)
    else simEvents[..|simEvents| - CountExpired(simEvents, start)]
  }

  /** Every slot is one of the equal parts it splits the day column into. */
  predicate InsideColumn(slots: seq<EventSlot>) {
    forall j :: 0 <= j < |slots| ==> slots[j].left < slots[j].count
  }

  /** The pass for the sorted event `e` at `i`, after the passes that gave `prev`. */
  function RenderNext(prev: Rendering, i: nat, e: CalEvent, intended: bool): Rendering {
    RenderStep(prev.slots, Listed(prev.simEvents, e.startsAt, intended), i, e)
  }

  /** The slot loop of renderEvents after the first `k` sorted events: one slot per event. */
  function RenderPrefix(events: seq<CalEvent>, k: nat, intended: bool): (r: Rendering)
    requires k <= |events|
    ensures |r.slots| == k
  {
    if k == 0 then Rendering([], [])
    else RenderNext(RenderPrefix(events, k - 1, intended), k - 1, events[k - 1], intended)
  }

  /**
   * What the slot loop keeps after `k` events: one slot per event, each
   * inside the day column, and the n listed events, with increasing ids
   * below `k`, holding slots 0 to n - 1 of n.
   */
  predicate Laid(r: Rendering, k: nat) {
    && |r.slots| == k
    && InsideColumn(r.slots)
    && IncreasingIds(r.simEvents) && IdsBelow(r.simEvents, k)
    && forall j :: 0 <= j < |r.simEvents| ==>
         r.simEvents[j].id < |r.slots| && r.slots[r.simEvents[j].id] == EventSlot(j, |r.simEvents|)
  }

  /** A pass keeps the layout laid out, whichever way the list is updated. */
  lemma RenderNextLaid(prev: Rendering, i: nat, e: CalEvent, intended: bool, r: Rendering)
    requires Laid(prev, i)
    requires r == RenderNext(prev, i, e, intended)
    ensures Laid(r, i + 1)
  {
    var listed := Listed(prev.simEvents, e.startsAt, intended);
    ListedKeepsIds(prev.simEvents, e.startsAt, intended, i, listed);
    RenderStepIds(prev.slots, listed, i, e, r);
    RenderStepSlots(prev.slots, listed, i, e, r);
    RenderStepInside(prev.slots, listed, i, e, r);
  }

  /** After `k` events the slots are laid out, for the written and the intended list alike. */
  lemma {:induction false} RenderPrefixLaid(events: seq<CalEvent>, k: nat, intended: bool)
    requires k <= |events|
    ensures Laid(RenderPrefix(events, k, intended), k)
  {
    if k > 0 {
      RenderPrefixLaid(events, k - 1, intended);
      RenderNextLaid(RenderPrefix(events, k - 1, intended), k - 1, events[k - 1], intended, RenderPrefix(events, k, intended));
    }
  }

  /**
   * With finished events dropped, every event listed after `k` events but
   * the newest is still running when the event at `k - 1` starts.
   */
  lemma RenderPrefixRunning(events: seq<CalEvent>, k: nat)
    requires 0 < k <= |events|
    ensures var r := RenderPrefix(events, k, true);
      forall j :: 0 <= j < |r.simEvents| - 1 ==> events[k - 1].startsAt <= r.simEvents[j].endTime
  {
    var prev := RenderPrefix(events, k - 1, true);
    StillRunningMembers(prev.simEvents, events[k - 1].startsAt);
  }

  /** Either update of the list keeps its ids increasing and below `bound`. */
  lemma ListedKeepsIds(simEvents: seq<SimEvent>, start: int, intended: bool, bound: nat, listed: seq<SimEvent>)
    requires IncreasingIds(simEvents) && IdsBelow(simEvents, bound)
    requires listed == Listed(simEvents, start, intended)
    ensures IncreasingIds(listed) && IdsBelow(listed, bound)
  {
    if intended {
      StillRunningKeepsOrder(simEvents, start);
      StillRunningMembers(simEvents, start);
      forall j | 0 <= j < |listed|
        ensures listed[j].id < bound
      {
        assert listed[j] in simEvents;
      }
    } else {
      assert forall j :: 0 <= j < |listed| ==> listed[j] == simEvents[j];
    }
  }

  class CalendarEventsApp {
    /** The first hour shown, on the 24-hour clock: the draft's setting, used only by the hour blocks left out here. */
    const startTime: int := 9
    /** Number of hours the day column spans: the draft's setting, used only by the hour blocks left out here. */
    const hoursInCalDay: int := 12
    /** Vertical pixels per hour: the draft's setting, used only by the pixel arithmetic left out here. */
    const hourInPixels: int := 60

    /** The events as handed to render. */
    var calEvents: EventsArg
    /** Copy of the events, sorted by start. */
    var sortedCalEvents: seq<CalEvent>

    /** Both event lists start out as empty arrays. */
    constructor ()
      ensures calEvents == EventArray([]) && sortedCalEvents == []
    {
      calEvents := EventArray([]);
      sortedCalEvents := [];
    }

    method Setup(calEvents: EventsArg)
      modifies this`calEvents
      ensures this.calEvents == calEvents
    {
      this.calEvents := calEvents;
    }

    /**
     * requirementsMet: false for a missing value, a value that is not an
     * array, or an empty array. It accepts exactly what the class-based
     * draft's constructor accepts.
     */
    function RequirementsMet(): (ok: bool)
      reads this
      ensures ok <==> SuppliesEvents(calEvents)
    {
      if calEvents.Missing? || calEvents.NotAnArray? || 0 == |calEvents.events| then false
      else true
    }

    /**
     * sortEvents: `sortedCalEvents` becomes a copy of the events sorted in
     * place by start; the events handed over keep their order.
     */
    method SortEvents()
      requires calEvents.EventArray?
      modifies this`sortedCalEvents
      ensures sortedCalEvents == SortByStart(calEvents.events)
      ensures SortedByStart(sortedCalEvents) && multiset(sortedCalEvents) == multiset(calEvents.events)
    {
      sortedCalEvents := calEvents.events;
      sortedCalEvents := SortByStart(sortedCalEvents);
      SortByStartCorrect(calEvents.events);
    }

    /**
     * The forEach body of renderEvents once the list of simultaneous events is
     * updated: with `n` events listed, each listed one moves to slot `idx` of
     * `n + 1`, its place in the list, the new event takes slot `n` of `n + 1`
     * (the single full-width slot when none is listed), and it is listed last.
     */
    method AddEvent(slots: seq<EventSlot>, listed: seq<SimEvent>, i: nat, calEvent: CalEvent)
      returns (slots': seq<EventSlot>, simEvents': seq<SimEvent>)
      requires |slots| == i
      requires IncreasingIds(listed) && forall k :: 0 <= k < |listed| ==> listed[k].id < i
      requires forall j :: 0 <= j < i ==> slots[j].left < slots[j].count
      ensures Rendering(slots', simEvents') == RenderStep(slots, listed, i, calEvent)
      ensures |slots'| == i + 1
      ensures simEvents' == listed + [SimEvent(i, End(calEvent))]
      ensures IncreasingIds(simEvents') && forall k :: 0 <= k < |simEvents'| ==> simEvents'[k].id < i + 1
      ensures forall k :: 0 <= k < |simEvents'| ==> slots'[simEvents'[k].id] == EventSlot(k, |simEvents'|)
      ensures forall j :: 0 <= j < i + 1 ==> slots'[j].left < slots'[j].count
      ensures forall j :: 0 <= j < i && (forall k :: 0 <= k < |listed| ==> listed[k].id != j) ==>
                slots'[j] == slots[j]
    {
      var n := |listed|;
      var relaid := Relayout(slots, listed);
      slots' := relaid + [EventSlot(n, n + 1)];
      simEvents' := listed + [SimEvent(i, End(calEvent))];
      RenderStepIds(slots, listed, i, calEvent, Rendering(slots', simEvents'));
      RenderStepSlots(slots, listed, i, calEvent, Rendering(slots', simEvents'));
      RenderStepInside(slots, listed, i, calEvent, Rendering(slots', simEvents'));
    }

    /**
     * The forEach body of renderEvents for the sorted event at `i`: update the
     * list of simultaneous events (by the written removal, or, when
     * `intended`, by dropping the finished ones), then lay the event out
     * beside the listed ones.
     */
    method RenderEvent(i: nat, slots: seq<EventSlot>, simEvents: seq<SimEvent>, intended: bool)
      returns (slots': seq<EventSlot>, simEvents': seq<SimEvent>)
      requires i < |sortedCalEvents| && Rendering(slots, simEvents) == RenderPrefix(sortedCalEvents, i, intended)
      ensures Rendering(slots', simEvents') == RenderPrefix(sortedCalEvents, i + 1, intended)
    {
      RenderPrefixLaid(sortedCalEvents, i, intended);
      var calEvent := sortedCalEvents[i];
      var listed;
      if intended {
        listed := StillRunning(simEvents, calEvent.startsAt);
      } else {
        listed := UpdateSimultaneousEvents(simEvents, calEvent.startsAt);
      }
      ListedKeepsIds(simEvents, calEvent.startsAt, intended, i, listed);
      slots', simEvents' := AddEvent(slots, listed, i, calEvent);
    }

    /**
     * The slot loop of renderEvents over the sorted events, as written: the
     * list of simultaneous events is updated by the written removal, the new
     * event and the listed ones share the width equally, and the new event is
     * listed last. At the end every event has a slot inside the day column,
     * and the listed events hold slots 0 to n - 1 of n.
     */
    method RenderSlots() returns (slots: seq<EventSlot>, simEvents: seq<SimEvent>)
      ensures Rendering(slots, simEvents) == RenderPrefix(sortedCalEvents, |sortedCalEvents|, false)
      ensures |slots| == |sortedCalEvents|
      ensures forall i :: 0 <= i < |slots| ==> slots[i].left < slots[i].count
      ensures forall k :: 0 <= k < |simEvents| ==> simEvents[k].id < |slots|
      ensures forall k :: 0 <= k < |simEvents| ==> slots[simEvents[k].id] == EventSlot(k, |simEvents|)
      ensures |sortedCalEvents| > 0 ==>
                |simEvents| > 0
                && simEvents[|simEvents| - 1]
                   == SimEvent(|sortedCalEvents| - 1, End(sortedCalEvents[|sortedCalEvents| - 1]))
    {
      simEvents := [];
      slots := [];
      for i := 0 to |sortedCalEvents|
        invariant Rendering(slots, simEvents) == RenderPrefix(sortedCalEvents, i, false)
      {
        slots, simEvents := RenderEvent(i, slots, simEvents, false);
      }
      RenderPrefixLaid(sortedCalEvents, |sortedCalEvents|, false);
    }

    /**
     * The slot loop as evidently intended: the events that have finished are
     * the ones dropped. Besides the slots of the written loop, every listed
     * event but the newest is still running when the last event starts.
     */
    method RenderSlotsIntended() returns (slots: seq<EventSlot>, simEvents: seq<SimEvent>)
      ensures Rendering(slots, simEvents) == RenderPrefix(sortedCalEvents, |sortedCalEvents|, true)
      ensures |slots| == |sortedCalEvents|
      ensures forall i :: 0 <= i < |slots| ==> slots[i].left < slots[i].count
      ensures forall k :: 0 <= k < |simEvents| ==> simEvents[k].id < |slots|
      ensures forall k :: 0 <= k < |simEvents| ==> slots[simEvents[k].id] == EventSlot(k, |simEvents|)
      ensures |sortedCalEvents| > 0 ==>
                forall k :: 0 <= k < |simEvents| - 1 ==>
                  sortedCalEvents[|sortedCalEvents| - 1].startsAt <= simEvents[k].endTime
    {
      simEvents := [];
      slots := [];
      for i := 0 to |sortedCalEvents|
        invariant Rendering(slots, simEvents) == RenderPrefix(sortedCalEvents, i, true)
      {
        slots, simEvents := RenderEvent(i, slots, simEvents, true);
      }
      RenderPrefixLaid(sortedCalEvents, |sortedCalEvents|, true);
      if |sortedCalEvents| > 0 {
        RenderPrefixRunning(sortedCalEvents, |sortedCalEvents|);
      }
    }

    /**
     * render: keep the events, and stop before sorting or rendering when they
     * are not a non-empty array; otherwise sort them and lay them out.
     */
    method Render(calEvents: EventsArg) returns (slots: seq<EventSlot>)
      modifies this
      ensures this.calEvents == calEvents
      ensures !SuppliesEvents(calEvents) ==> sortedCalEvents == old(sortedCalEvents) && slots == []
      ensures SuppliesEvents(calEvents) ==>
                && sortedCalEvents == SortByStart(calEvents.events)
                && |slots| == |calEvents.events|
                && slots == RenderPrefix(sortedCalEvents, |sortedCalEvents|, false).slots
                && forall i :: 0 <= i < |slots| ==> slots[i].left < slots[i].count
    {
      Setup(calEvents);
      if !RequirementsMet() {
        return [];
      }
      SortEvents();
      assert |sortedCalEvents| == |multiset(sortedCalEvents)| == |calEvents.events|;
      var simEvents;
      slots, simEvents := RenderSlots();
    }
  }
}
